=== FILE: README.md ===
# Double-buffered SKU matcher: a Dafny model

This project models the sequential core of a Go program that serves point
lookups ("match a SKU against a large in-memory table") while a background
loader periodically rebuilds the table and swaps it into service. The model
covers the lookup table (`SkuCache`), the double-buffered loader
(`TargetCacheLoader`), and the two matchers behind the `TargetMatcher`
interface:

- the actor matcher (`ActiveTargetMatcher`), with a pool of workers, each
  running an event loop over a query channel, a storeroom channel and a
  cache-update channel;
- the lock-based matcher (`PassiveTargetMatcher`), with a single table
  handle behind a reader-writer lock.

Every channel receive, every locked section and every timer tick is one
atomic step. Where the order of steps is up to the scheduler, the step to
take is a parameter. This covers which ready channel a worker serves, which
sleeping phase-2 query reaches the storeroom first, and where a cache update
lands inside a lookup.

Modules, one per component:

- `SkuCaches` (`sku_cache.dfy`): the table, `match` with its 50 repeated
  probes, `initSkuCache`, the data source's fill and the loader's priming
  copy.
- `Buffers` (`buffers.dfy`): the loader's two buffers `A` and `B`. A Go
  `*SkuCache` is a `Ref` to one of them. Reading through a pointer consults
  the current `Heap`, so aliasing is modelled: a matcher sees later writes
  to the buffer it holds.
- `CacheLoader` (`cache_loader.dfy`): `loadAndNotify`, `start` and the
  ticker-loop body. Each cycle also returns a trace of its effects
  (buffer writes and matcher notifications), so the order of those steps
  can be stated.
- `ActiveMatcher` (`active_matcher.dfy`): the worker transitions, the
  pool-level `Step`, round-robin dispatch and the `updateCache`
  broadcast. Each query carries a model id standing for its `QueryMessage`
  pointer, and the matcher records the key each id was issued with. The
  invariant `Inv` says that every issued query is held by exactly one worker
  or completed exactly once. It also says that every phase 2 follows its
  query's phase 1, and that every held query still asks for its own key.
- `PassiveMatcher` (`passive_matcher.dfy`): `getCache`, `updateCache` and
  `findMatch`.
- `Matchers` (`matchers.dfy`): the interface as a datatype over both
  implementations, and the loader wired to it (`start`, ticks, runs). Also
  the end-to-end results: after any number of reloads, lookups answer from
  the latest loaded contents.
- `Optional` (`optional.dfy`): `Option`, standing for a pointer that may be
  nil.

Notes on what the code does, which the model follows:

- The dispatcher increments the counter and then takes the new value modulo
  the pool size. The first query goes to worker 1 mod the pool size, which is
  worker 1 unless the pool has a single worker.
- The cache-update channel is unbuffered. Each send is a synchronous
  handoff, modelled as one atomic step per worker.
- The lock-based `findMatch` takes the read lock only while it reads the
  handle. The match itself runs outside the lock, and that is the defect
  under "## Findings". No code path holds the read lock across the match, or
  across the simulated I/O wait. `PassiveMatcher.FindMatch` models the
  corrected form: each phase's handle read and match happen under one read
  lock. A cache update may still land between the two phases.
- Because the ticker loop checks, sets and clears `isLoading` in one body,
  the "missed tick" branch is unreachable in the code. The model proves
  this (`CacheLoader.NoMissedTicks`).

## Model

| member | source | states |
|---|---|---|
| `SkuCaches.Probes` | threadmodel.go:28-30 | after any positive number of iterations of the probing loop, the value held is what one map read gives; with none left it is the value from before |
| `SkuCaches.Match` | threadmodel.go:24-33 | `match` returns the stored value for a present key and `""` for an absent one, the same as a single read |
| `SkuCaches.InitSkuCache` | threadmodel.go:20-22 | after `initSkuCache` the table is empty and every match returns `""` |
| `SkuCaches.Populate` | threadmodel.go:58-66 | the loaded table has exactly the new contents' keys and answers every key as the new contents do; nothing of the old contents survives |
| `SkuCaches.CopyOf` | threadmodel.go:76-79 | reset-then-copy of every entry yields a table equal to the source, answering every key the same way |
| `CacheLoader.LoadAndNotify` | threadmodel.go:68-80 | the buffers stay distinct and swap roles; the matcher is notified exactly once, with the new active buffer, which already holds the complete new contents; no write after the notification touches that buffer; the first write targets the old inactive buffer; the trace replays to the final buffers; afterwards both buffers hold the new contents |
| `CacheLoader.Start` | threadmodel.go:82-87 | starting from active A and inactive B, the initial cycle leaves B active (holding the loaded contents), A inactive, the loader idle, one notification of B, and no write to a served buffer |
| `CacheLoader.Tick` | threadmodel.go:92-102 | a tick is missed exactly when a reload is in progress and then changes nothing; otherwise it swaps the roles, notifies the new active buffer once, leaves it holding the new contents, and clears the flag |
| `CacheLoader.Run` | threadmodel.go:92-102 | from an idle loader, every tick of the ticker loop reloads, the loader ends idle and valid, and the active buffer holds the last load |
| `CacheLoader.NoMissedTicks` | threadmodel.go:95-101 | after `start`, `isLoading` is false at every check, so the missed-tick branch is never taken |
| `CacheLoader.ServedTableIsComplete` | threadmodel.go:68-80 | at every point of a cycle, the buffer the matcher holds is complete: the old table before the notification, the new contents after it |
| `CacheLoader.RunAvoidsServed` | threadmodel.go:68-101 | over the whole life of a started loader, no write goes to the buffer most recently handed to the matcher, and that buffer is always the active one |
| `ActiveMatcher.NewActiveTargetMatcher` | activetargetmatcher.go:76-87 | the pool holds exactly the requested number of workers, each with no table and empty channels, the counter is zero, and the invariant holds |
| `ActiveMatcher.NewWorker` | activetargetmatcher.go:28-34 | a new worker holds no query and has no table, so a query it serves before any cache update is answered at once with `""` (`ActiveMatcher.NoCacheRepliesEmpty`) |
| `ActiveMatcher.ReceiveQuery` | activetargetmatcher.go:40-51 | a query with no table installed completes at once with `""`; with a table it passes phase 1 and joins the pending storeroom queries; the handle is unchanged either way |
| `ActiveMatcher.ReceiveStoreroom` | activetargetmatcher.go:52-54 | phase 2 removes exactly that query from the pending ones and completes it with the lookup in the worker's current table |
| `ActiveMatcher.ReceiveUpdate` | activetargetmatcher.go:55-57 | a cache update replaces only the worker's handle; queued and pending queries are untouched |
| `ActiveMatcher.NextWorker` | activetargetmatcher.go:89-93 | dispatch bumps the counter by one and picks the worker at the new counter modulo the pool size, an index inside the pool |
| `ActiveMatcher.Dispatches` | activetargetmatcher.go:89-93 | the j-th of k consecutive dispatches picks worker (counter + 1 + j) mod pool size |
| `ActiveMatcher.RoundRobinCoversPool` | activetargetmatcher.go:89-93 | any pool-size consecutive dispatches pick every worker exactly once |
| `ActiveMatcher.Step` | activetargetmatcher.go:36-68 | each atomic step keeps the pool size, only extends the query trace, touches one worker, and only dispatch moves the counter and issues a query, recording the key it asks for |
| `ActiveMatcher.Broadcast` | activetargetmatcher.go:95-99 | part-way through a broadcast the first k workers hold the new handle and the rest are unchanged, the cross-worker window of a cache swap |
| `ActiveMatcher.UpdateCache` | activetargetmatcher.go:95-99 | after `updateCache` every worker holds the new handle and no queue, counter or trace changes |
| `ActiveMatcher.UpdateCacheIsBroadcastSteps` | activetargetmatcher.go:95-99 | `updateCache` equals delivering one cache-update event to each worker, in pool order |
| `ActiveMatcher.StepKeepsInv` | activetargetmatcher.go:36-60 | every step keeps the invariant: each issued query is held or completed exactly once, pending queries sit on workers with a table, phase 1 precedes phase 2, and every held query asks for the key it was issued with |
| `ActiveMatcher.CompletesAtMostOnce` | activetargetmatcher.go:48-54 | in a reachable state no query has completed twice, and a completed query is no longer held by any worker |
| `ActiveMatcher.CompletionIsFirstAndLast` | activetargetmatcher.go:48-54 | a step that completes a query completes an issued one for the first time and leaves no worker holding it |
| `ActiveMatcher.Reply` | activetargetmatcher.go:62-68 | the reply `doQuery` receives, if any, is a result recorded for that query's completion; with no reply, no completion of that query is on record |
| `ActiveMatcher.ReplyAnswersIssuedSku` | activetargetmatcher.go:101-104 | the reply a `findMatch` call receives, at the step that delivers it, belongs to an issued query and is the lookup of the key that call asked for, in the table of the worker serving it, or `""` when that worker has no table |
| `ActiveMatcher.ReplyIffCompleted` | activetargetmatcher.go:62-68 | `doQuery` has a reply for a query exactly when the query has completed, and the reply is the result stored at completion |
| `ActiveMatcher.ReplyIsStable` | activetargetmatcher.go:62-68 | once a query has its reply, no later step changes it |
| `ActiveMatcher.NoCacheRepliesEmpty` | activetargetmatcher.go:48-51 | a query reaching a worker that has no table gets the reply `""` |
| `ActiveMatcher.QueuedQueryUnanswered` | activetargetmatcher.go:62-68 | in a reachable state, a query still waiting in a worker's query channel has no reply yet, so its `doQuery` caller is still blocked |
| `ActiveMatcher.PhaseTwoUsesCurrentCache` | activetargetmatcher.go:41-54 | phase 1 leaves the query's reply unchanged (none in a reachable state, by `ActiveMatcher.QueuedQueryUnanswered`) and keeps it pending with the handle unchanged; when a cache update arrives before phase 2, the reply is the lookup in the newer table |
| `PassiveMatcher.NewPassiveTargetMatcher` | passivetargetmatcher.go:19-22 | a new matcher's handle is nil |
| `PassiveMatcher.GetCache` | passivetargetmatcher.go:24-30 | `getCache` returns nil exactly for a matcher in its initial state, one no `updateCache` has reached |
| `PassiveMatcher.UpdateCache` | passivetargetmatcher.go:32-37 | after `updateCache(c)`, `getCache` returns `c` |
| `PassiveMatcher.FindMatch` | passivetargetmatcher.go:39-44 | with no update between the phases, the reply is the lookup in the current table and the matcher is unchanged; with one, phase 2 answers from the newly installed table |
| `Matchers.UpdateCache` | threadmodel.go:39-42 | through the interface, `updateCache` keeps the implementation and makes every handle it holds the new buffer; the actor matcher's pool size, queues, counter, issued queries and trace do not change |
| `Matchers.Deliver` | threadmodel.go:74 | after the loader's notifications are delivered in order, every handle of the matcher is the last notified buffer |
| `Matchers.StartSystem` | threadmodel.go:82-87 | after `start`, every matcher handle points at the active buffer, which holds the loaded contents |
| `Matchers.TickSystem` | threadmodel.go:95-101 | a tick keeps every matcher handle on the active buffer, and that buffer holds the new contents |
| `Matchers.RunSystem` | threadmodel.go:92-102 | over any number of ticks the matcher keeps serving the active buffer, which holds the last load |
| `Matchers.PassiveServesLatestLoad` | passivetargetmatcher.go:39-44 | after start-up and any number of reloads, a lock-based lookup answers from the most recently loaded contents |
| `Matchers.ActiveServesLatestLoad` | activetargetmatcher.go:95-99 | after start-up and any number of reloads, every worker holds the active buffer and its lookups answer from the most recently loaded contents |
| `Matchers.LockedFindMatchSeesCompleteTable` | passivetargetmatcher.go:39-44 | with each match under the read lock, a lookup at any point of a reload reads a complete table, the old one before the notification and the new one after |
| `Matchers.MatchOutsideLockDuringReload` | passivetargetmatcher.go:39-44 | for every point of a reload at which the handle is read, and every later point at which the match runs, the as-written lookup answers from the new contents if the handle was read after the notification; otherwise from the old table before the reset, `""` between the reset and the prime (the copy being one write here), and the new contents after the prime |
| `Matchers.StaleHandleSeesResetBuffer` | passivetargetmatcher.go:24-30 | with the match outside the lock, a lookup can read the buffer the loader has just reset and answer `""` for a key both tables contain |

## Left out

- Goroutines, channel buffering and blocking (capacity 1000 for the query and storeroom channels), `select` fairness, `sync.WaitGroup`, `sync.RWMutex` and `atomic.AddInt64`: each receive or locked section is one atomic step, and which one runs next is a parameter; timing and mutual exclusion themselves are not something this model can check.
- `time.Sleep`, `time.Ticker` and `stop`: real-time scheduling with no state; a tick is a call of `Tick`.
- `loadTestData`'s generation of 10M time-stamped values: its output is the `loaded` map parameter, and its fill is one write. The buffer it fills is never the buffer most recently handed to the matcher (`CacheLoader.RunAvoidsServed`); a lookup still holding an older handle may read it, as "## Findings" shows.
- `CacheLoader.LoadAndNotify`: the priming copy at threadmodel.go:77-79 stores one entry per loop iteration, but the model applies it as one write. So in the model a stale lookup (see "## Findings") answers `""` for the whole stretch between the reset and the end of the copy. In the code it answers `""` or the new value, depending on whether its key has been copied yet, and the unsynchronised map access may abort the process.
- `main`, `sendRequests`, `queryMatch`, the command-line choice between the matchers, and all console output (`Updated skuCache`, the timer and missed-tick messages): process plumbing and benchmarking.
- The loader before `start`: its pointers are nil and nothing reads them before `start` sets them.
- Handles other than the loader's two buffers (or nil) passed to `updateCache`: the program never passes any.
- The storeroom channel's FIFO order: phase-2 queries may reach the storeroom in any order (their sleeping goroutines race), so the model allows any pending query next, which includes the FIFO orders.
- The discarded phase-1 `match` result in the actor worker: it changes no state, so `ReceiveQuery` records only that phase 1 happened.
- `ActiveMatcher.NextWorker`: the counter is a `nat`; Go's `int64` would wrap after 2^63 dispatches and then `%` would give a negative index. The pool must be non-empty to dispatch at all (an empty pool is a division by zero in `getNextTargetMatcherWorker`), which `NextWorker` and the `Dispatch` case of `Enabled` require.
- `ActiveMatcher.CompletesAtMostOnce`: states that a query completes at most once and is then released; that every query eventually completes needs a fair scheduler and is not modelled.
- `ActiveMatcher.ReceiveQuery`: a worker's query channel must be non-empty to receive; an empty channel blocks the `select` case in the code.
- A lock-based `findMatch` that holds the read lock across the I/O wait: no code path does this, so it is not modelled.
- The counter bump and the query-channel send of the actor `findMatch` (`atomic.AddInt64` in `getNextTargetMatcherWorker` and the send in `doQuery`) are one atomic `Dispatch` step. So queries reach a worker's queue in counter order, whereas two concurrent Go callers may send in the other order. No proved property depends on that order.

## Findings

| source | as written | input that shows it | evidently intended | confidence | as-written member | corrected member |
|---|---|---|---|---|---|---|
| passivetargetmatcher.go:39-44 | `findMatch` holds the read lock only inside `getCache` while it copies the pointer, then runs `match` on that table unlocked; right after `updateCache` the loader resets the previously active buffer (threadmodel.go:76) and refills it entry by entry (threadmodel.go:77-79), so an unlocked lookup can see an empty or half-copied table, and Go's map implementation may even abort the process with "concurrent map read and map write" | start with `{"0": "a"}`; a lookup of `"0"` reads handle B; the next reload loads `{"0": "b"}` into A, swaps, notifies A and resets B; the lookup's match then reads the empty B and answers `""` | every lookup reads a complete table: the read lock covers the match, so `updateCache`'s write lock waits for readers of the old buffer | medium, not executed | `Matchers.StaleHandleSeesResetBuffer`, `Matchers.MatchOutsideLockDuringReload` | `Matchers.LockedFindMatchSeesCompleteTable` |

=== FILE: active_matcher.dfy ===
/**
 The actor-style matcher (`ActiveTargetMatcher`): a fixed pool of workers, a
 round-robin dispatcher, and per-worker event loops. Every channel receive is
 one atomic step; which ready channel a worker serves next, and in which order
 sleeping phase-2 queries reach the storeroom, are left to the caller of `Step`.
 Queries carry a model identity (`id`) standing for the identity of the Go
 `QueryMessage` they are.
 */
module ActiveMatcher {
  import opened Optional
  import opened SkuCaches
  import opened Buffers

  datatype Query = Query(id: nat, sku: string)

  /**
   A worker: its table handle, the queries waiting in its query channel (FIFO),
   and the queries past phase 1 that are asleep or waiting in its storeroom channel.
   */
  datatype Worker = Worker(cache: Option<Ref>, queryIn: seq<Query>, storeroom: seq<Query>)

  /** What happened to queries, in order. */
  datatype Trace = PhaseOne(id: nat) | PhaseTwo(id: nat) | Completed(id: nat, result: string)

  datatype WorkerStep = WorkerStep(worker: Worker, trace: seq<Trace>)

  /** `NewTargetMatcherWorker`: a worker that holds no query and has no table installed. */
  function NewWorker(): (w: Worker)
    ensures w.cache.None?
    ensures Outstanding(w) == multiset{}
  {
    assert IdsOf([]) == multiset{};
    Worker(None, [], [])
  }

  /**
   The query-in case of `run`. With a table installed, phase 1 runs (its result
   is discarded) and the query goes to sleep on its way to the storeroom;
   without one, the caller is released at once with the zero string.
   */
  function ReceiveQuery(w: Worker): (s: WorkerStep)
    requires w.queryIn != []
    ensures s.worker.cache == w.cache
    ensures s.worker.queryIn == w.queryIn[1..]
    ensures w.cache.None? ==> s.worker.storeroom == w.storeroom && s.trace == [Completed(w.queryIn[0].id, "")]
    ensures w.cache.Some? ==> s.worker.storeroom == w.storeroom + [w.queryIn[0]] && s.trace == [PhaseOne(w.queryIn[0].id)]
  {
    var q := w.queryIn[0];
    if w.cache.Some? then
      WorkerStep(w.(queryIn := w.queryIn[1..], storeroom := w.storeroom + [q]), [PhaseOne(q.id)])
    else
      WorkerStep(w.(queryIn := w.queryIn[1..]), [Completed(q.id, "")])
  }

  /**
   The storeroom case of `run`: phase 2 matches against the worker's table as
   it is now, which may be newer than the one phase 1 used, and releases the caller.
   */
  function ReceiveStoreroom(w: Worker, i: nat, heap: Heap): (s: WorkerStep)
    requires i < |w.storeroom|
    requires w.cache.Some?
    ensures s.worker.cache == w.cache && s.worker.queryIn == w.queryIn
    ensures s.worker.storeroom == w.storeroom[..i] + w.storeroom[i + 1..]
    ensures s.trace == [PhaseTwo(w.storeroom[i].id), Completed(w.storeroom[i].id, Lookup(heap.Get(w.cache.value), w.storeroom[i].sku))]
  {
    var q := w.storeroom[i];
    var result := Match(heap.Get(w.cache.value), q.sku);
    WorkerStep(w.(storeroom := w.storeroom[..i] + w.storeroom[i + 1..]), [PhaseTwo(q.id), Completed(q.id, result)])
  }

  /** The cache-update case of `run`: only the handle changes. */
  function ReceiveUpdate(w: Worker, h: Ref): (v: Worker)
    ensures v.cache == Some(h)
    ensures v.queryIn == w.queryIn && v.storeroom == w.storeroom
  {
    w.(cache := Some(h))
  }

  /**
   The matcher: the worker pool, the round-robin counter
   (`nextTargetMatcherWorker`), the key each issued query asked for (query
   `id` asked for `skus[id]`), and the trace of everything that happened to them.
   */
  datatype ActiveTargetMatcher = ActiveTargetMatcher(pool: seq<Worker>, next: nat, skus: seq<string>, log: seq<Trace>)
  {
    /** How many queries have been issued; the next one gets this id. */
    const issued: nat := |skus|
  }

  /** `NewActiveTargetMatcher(n)`: `n` fresh workers and a zero counter. */
  function NewActiveTargetMatcher(n: nat): (m: ActiveTargetMatcher)
    ensures |m.pool| == n && m.next == 0 && m.issued == 0
    ensures forall i :: 0 <= i < n ==> m.pool[i].cache.None? && m.pool[i].queryIn == [] && m.pool[i].storeroom == []
    ensures Inv(m)
  {
    var m := ActiveTargetMatcher(seq(n, _ => NewWorker()), 0, [], []);
    NoIdsInFreshPool(n);
    m
  }

  // ---------------------------------------------------------------------------
  // Round robin

  datatype Choice = Choice(matcher: ActiveTargetMatcher, index: nat)

  /**
   `getNextTargetMatcherWorker`: bump the counter by one and pick the worker at
   the new counter modulo the pool size. An empty pool is a division by zero in
   the source, hence the precondition.
   */
  function NextWorker(m: ActiveTargetMatcher): (c: Choice)
    requires |m.pool| > 0
    ensures c.index < |m.pool|
    ensures c.matcher == m.(next := m.next + 1)
    ensures c.index == c.matcher.next % |m.pool|
  {
    var m' := m.(next := m.next + 1);
    Choice(m', m'.next % |m.pool|)
  }

  /** The workers picked by `k` consecutive dispatches. */
  function Dispatches(m: ActiveTargetMatcher, k: nat): (picks: seq<nat>)
    requires |m.pool| > 0
    ensures |picks| == k
    ensures forall j :: 0 <= j < k ==> picks[j] == (m.next + 1 + j) % |m.pool|
    decreases k
  {
    if k == 0 then []
    else
      var c := NextWorker(m);
      [c.index] + Dispatches(c.matcher, k - 1)
  }

  /** The multiset holding each of 0, 1, ..., n - 1 once. */
  function Below(n: nat): (s: multiset<nat>)
    ensures forall x: nat :: s[x] == if x < n then 1 else 0
    decreases n
  {
    if n == 0 then multiset{} else Below(n - 1) + multiset{n - 1}
  }

  /** Euclidean division is unique: the quotient and remainder are determined by `a == q * p + r`. */
  lemma DivModUnique(a: int, p: int, q: int, r: int)
    requires p > 0 && 0 <= r < p && a == q * p + r
    ensures a % p == r && a / p == q
  {
    var d := a / p;
    var t := a % p;
    assert a == d * p + t;
    assert (q - d) * p == t - r;
    if q - d >= 1 {
      MulAtLeast(q - d, p);
    } else if q - d <= -1 {
      MulAtLeast(d - q, p);
    }
  }

  lemma MulAtLeast(k: int, p: int)
    requires k >= 1 && p > 0
    ensures k * p >= p
  {
  }

  /** Any `|pool|` consecutive dispatches pick every worker exactly once. */
  lemma {:induction false} RoundRobinCoversPool(m: ActiveTargetMatcher)
    requires |m.pool| > 0
    ensures multiset(Dispatches(m, |m.pool|)) == Below(|m.pool|)
  {
    var p := |m.pool|;
    var picks := Dispatches(m, p);
    var s := m.next + 1;
    var r := s % p;
    var q := s / p;
    assert s == q * p + r;
    var ordered := seq(p, j => j);
    var rotated := ordered[r..] + ordered[..r];
    forall j | 0 <= j < p
      ensures picks[j] == rotated[j]
    {
      if r + j < p {
        DivModUnique(s + j, p, q, r + j);
      } else {
        assert s + j == (q + 1) * p + (r + j - p);
        DivModUnique(s + j, p, q + 1, r + j - p);
      }
    }
    assert picks == rotated;
    assert ordered == ordered[..r] + ordered[r..];
    BelowIsRange(p);
  }

  lemma {:induction false} BelowIsRange(n: nat)
    ensures multiset(seq(n, j => j)) == Below(n)
    decreases n
  {
    if n > 0 {
      BelowIsRange(n - 1);
      assert seq(n, j => j) == seq(n - 1, j => j) + [n - 1];
    }
  }

  // ---------------------------------------------------------------------------
  // Pool events

  datatype Event =
    | Dispatch(sku: string)
    | QueryIn(worker: nat)
    | StoreroomIn(worker: nat, index: nat)
    | CacheUpdateIn(worker: nat, handle: Ref)

  /** When each event can happen. */
  predicate Enabled(m: ActiveTargetMatcher, e: Event)
  {
    match e
    case Dispatch(_) => |m.pool| > 0
    case QueryIn(w) => w < |m.pool| && m.pool[w].queryIn != []
    case StoreroomIn(w, i) => w < |m.pool| && i < |m.pool[w].storeroom| && m.pool[w].cache.Some?
    case CacheUpdateIn(w, _) => w < |m.pool|
  }

  /**
   One atomic step of the matcher. `Dispatch` is the sending half of
   `findMatch`/`doQuery`: pick a worker and queue a new query on it; the caller
   then waits for the query's `Completed` entry. The other events are the three
   cases of a worker's `run` loop; `heap` holds the buffers' current contents.
   */
  function Step(m: ActiveTargetMatcher, e: Event, heap: Heap): (m': ActiveTargetMatcher)
    requires Enabled(m, e)
    ensures |m'.pool| == |m.pool|
    ensures m.log <= m'.log
    ensures e.Dispatch? ==> m'.next == m.next + 1 && m'.skus == m.skus + [e.sku]
    ensures !e.Dispatch? ==> m'.next == m.next && m'.skus == m.skus
    ensures e.Dispatch? || e.CacheUpdateIn? ==> m'.log == m.log
    ensures forall w :: 0 <= w < |m.pool| && w != WorkerOf(m, e) ==> m'.pool[w] == m.pool[w]
  {
    match e
    case Dispatch(sku) =>
      var c := NextWorker(m);
      var w := m.pool[c.index];
      c.matcher.(pool := m.pool[c.index := w.(queryIn := w.queryIn + [Query(m.issued, sku)])],
                 skus := m.skus + [sku])
    case QueryIn(i) =>
      var s := ReceiveQuery(m.pool[i]);
      m.(pool := m.pool[i := s.worker], log := m.log + s.trace)
    case StoreroomIn(i, k) =>
      var s := ReceiveStoreroom(m.pool[i], k, heap);
      m.(pool := m.pool[i := s.worker], log := m.log + s.trace)
    case CacheUpdateIn(i, h) =>
      m.(pool := m.pool[i := ReceiveUpdate(m.pool[i], h)])
  }

  /** The one worker an event touches. */
  function WorkerOf(m: ActiveTargetMatcher, e: Event): nat
    requires Enabled(m, e)
  {
    match e
    case Dispatch(_) => NextWorker(m).index
    case QueryIn(w) => w
    case StoreroomIn(w, _) => w
    case CacheUpdateIn(w, _) => w
  }

  /** A sequence of steps, each enabled in the state the previous one left. */
  function Steps(m: ActiveTargetMatcher, es: seq<Event>, heap: Heap): Option<ActiveTargetMatcher>
    decreases |es|
  {
    if es == [] then Some(m)
    else if !Enabled(m, es[0]) then None
    else Steps(Step(m, es[0], heap), es[1..], heap)
  }

  // ---------------------------------------------------------------------------
  // Cache update broadcast

  /** The state after the first `k` workers of the pool have taken `h`. */
  function Broadcast(m: ActiveTargetMatcher, h: Ref, k: nat): (m': ActiveTargetMatcher)
    requires k <= |m.pool|
    ensures |m'.pool| == |m.pool| && m'.next == m.next && m'.skus == m.skus && m'.log == m.log
    ensures forall i :: 0 <= i < k ==> m'.pool[i] == ReceiveUpdate(m.pool[i], h)
    ensures forall i :: k <= i < |m.pool| ==> m'.pool[i] == m.pool[i]
    decreases k
  {
    if k == 0 then m
    else
      var before := Broadcast(m, h, k - 1);
      before.(pool := before.pool[k - 1 := ReceiveUpdate(before.pool[k - 1], h)])
  }

  /** `updateCache`: every worker, in pool order, takes the same handle; nothing else changes. */
  function UpdateCache(m: ActiveTargetMatcher, h: Ref): (m': ActiveTargetMatcher)
    ensures |m'.pool| == |m.pool| && m'.next == m.next && m'.skus == m.skus && m'.log == m.log
    ensures forall i :: 0 <= i < |m.pool| ==> m'.pool[i].cache == Some(h)
    ensures forall i :: 0 <= i < |m.pool| ==>
              m'.pool[i].queryIn == m.pool[i].queryIn && m'.pool[i].storeroom == m.pool[i].storeroom
  {
    Broadcast(m, h, |m.pool|)
  }

  /** The cache-update events `updateCache` sends: one per worker, in pool order. */
  function UpdateEvents(n: nat, h: Ref): (es: seq<Event>)
    ensures |es| == n
    ensures forall i :: 0 <= i < n ==> es[i] == CacheUpdateIn(i, h)
  {
    seq(n, (i: int) requires 0 <= i < n => CacheUpdateIn(i, h))
  }

  /** `updateCache` is exactly its per-worker sends, delivered in pool order with nothing in between. */
  lemma {:induction false} UpdateCacheIsBroadcastSteps(m: ActiveTargetMatcher, h: Ref, heap: Heap)
    ensures Steps(m, UpdateEvents(|m.pool|, h), heap) == Some(UpdateCache(m, h))
  {
    BroadcastSteps(m, h, heap, 0);
  }

  lemma {:induction false} BroadcastSteps(m: ActiveTargetMatcher, h: Ref, heap: Heap, k: nat)
    requires k <= |m.pool|
    ensures Steps(Broadcast(m, h, k), UpdateEvents(|m.pool|, h)[k..], heap) == Some(UpdateCache(m, h))
    decreases |m.pool| - k
  {
    var es := UpdateEvents(|m.pool|, h);
    if k < |m.pool| {
      var b := Broadcast(m, h, k);
      assert es[k..][0] == CacheUpdateIn(k, h);
      assert es[k..][1..] == es[k + 1..];
      var stepped := Step(b, CacheUpdateIn(k, h), heap);
      assert stepped == Broadcast(m, h, k + 1);
      BroadcastSteps(m, h, heap, k + 1);
    } else {
      assert es[k..] == [];
    }
  }

  // ---------------------------------------------------------------------------
  // Every query completes exactly once, and phase 1 precedes phase 2

  function IdsOf(qs: seq<Query>): multiset<nat>
  {
    multiset(seq(|qs|, i requires 0 <= i < |qs| => qs[i].id))
  }

  lemma IdsOfAppend(a: seq<Query>, b: seq<Query>)
    ensures IdsOf(a + b) == IdsOf(a) + IdsOf(b)
  {
    var sa := seq(|a|, i requires 0 <= i < |a| => a[i].id);
    var sb := seq(|b|, i requires 0 <= i < |b| => b[i].id);
    assert seq(|a + b|, i requires 0 <= i < |a + b| => (a + b)[i].id) == sa + sb;
  }

  lemma IdsOfSingle(q: Query)
    ensures IdsOf([q]) == multiset{q.id}
  {
    assert seq(1, i requires 0 <= i < 1 => [q][i].id) == [q.id];
  }

  /** The queries a worker still holds. */
  function Outstanding(w: Worker): multiset<nat>
  {
    IdsOf(w.queryIn) + IdsOf(w.storeroom)
  }

  function OutstandingIn(pool: seq<Worker>): multiset<nat>
    decreases |pool|
  {
    if pool == [] then multiset{} else OutstandingIn(pool[..|pool| - 1]) + Outstanding(pool[|pool| - 1])
  }

  /** The ids of the completed queries, with multiplicity. */
  function CompletedIds(log: seq<Trace>): multiset<nat>
    decreases |log|
  {
    if log == [] then multiset{}
    else
      var last := log[|log| - 1];
      CompletedIds(log[..|log| - 1]) + if last.Completed? then multiset{last.id} else multiset{}
  }

  /** Every issued query is, exactly once, either still held by some worker or completed. */
  predicate Accounted(m: ActiveTargetMatcher)
  {
    OutstandingIn(m.pool) + CompletedIds(m.log) == Below(m.issued)
  }

  /** A worker with sleeping phase-2 queries has a table installed. */
  predicate PendingHaveCache(m: ActiveTargetMatcher)
  {
    forall w :: 0 <= w < |m.pool| && m.pool[w].storeroom != [] ==> m.pool[w].cache.Some?
  }

  /** A query past phase 1 has its phase 1 in the trace. */
  predicate PendingPassedPhaseOne(m: ActiveTargetMatcher)
  {
    forall w, i :: 0 <= w < |m.pool| && 0 <= i < |m.pool[w].storeroom| ==> PhaseOne(m.pool[w].storeroom[i].id) in m.log
  }

  /** Query `q` asks for the key it was issued with. */
  predicate IssuedAs(skus: seq<string>, q: Query)
  {
    q.id < |skus| && skus[q.id] == q.sku
  }

  /** Every query a worker holds, queued or asleep, asks for the key it was issued with. */
  predicate HeldAsIssued(m: ActiveTargetMatcher)
  {
    forall w :: 0 <= w < |m.pool| ==>
      && (forall q :: q in m.pool[w].queryIn ==> IssuedAs(m.skus, q))
      && (forall q :: q in m.pool[w].storeroom ==> IssuedAs(m.skus, q))
  }

  /** The invariant of the matcher; every phase 2 in the trace follows the phase 1 of its query. */
  predicate Inv(m: ActiveTargetMatcher)
  {
    && Accounted(m)
    && PendingHaveCache(m)
    && PendingPassedPhaseOne(m)
    && PhasesOrdered(m.log)
    && HeldAsIssued(m)
  }

  predicate PhasesOrdered(log: seq<Trace>)
  {
    forall j :: 0 <= j < |log| && log[j].PhaseTwo? ==> PhaseOne(log[j].id) in log[..j]
  }

  lemma NoIdsInFreshPool(n: nat)
    ensures OutstandingIn(seq(n, _ => NewWorker())) == multiset{}
  {
    if n > 0 {
      var pool := seq(n, _ => NewWorker());
      assert pool[..n - 1] == seq(n - 1, _ => NewWorker());
      NoIdsInFreshPool(n - 1);
      assert IdsOf([]) == multiset{};
    }
  }

  /** Replacing one worker changes what the pool holds by exactly what that worker holds. */
  lemma {:induction false} OutstandingInUpdate(pool: seq<Worker>, i: nat, w: Worker)
    requires i < |pool|
    ensures OutstandingIn(pool[i := w]) + Outstanding(pool[i]) == OutstandingIn(pool) + Outstanding(w)
    decreases |pool|
  {
    var n := |pool|;
    var updated := pool[i := w];
    var init := pool[..n - 1];
    assert OutstandingIn(pool) == OutstandingIn(init) + Outstanding(pool[n - 1]);
    assert OutstandingIn(updated) == OutstandingIn(updated[..n - 1]) + Outstanding(updated[n - 1]);
    if i == n - 1 {
      assert updated[..n - 1] == init;
    } else {
      assert updated[..n - 1] == init[i := w];
      assert updated[n - 1] == pool[n - 1];
      OutstandingInUpdate(init, i, w);
      AddOnBothSides(OutstandingIn(init[i := w]), OutstandingIn(init), Outstanding(pool[i]), Outstanding(w), Outstanding(pool[n - 1]));
    }
  }

  /** Adding the same multiset to both sides of an equation of sums. */
  lemma AddOnBothSides(x: multiset<nat>, y: multiset<nat>, u: multiset<nat>, v: multiset<nat>, last: multiset<nat>)
    requires x + u == y + v
    ensures (x + last) + u == (y + last) + v
  {
    forall k: nat
      ensures ((x + last) + u)[k] == ((y + last) + v)[k]
    {
      assert (x + u)[k] == (y + v)[k];
    }
  }

  lemma {:induction false} CompletedIdsAppend(a: seq<Trace>, b: seq<Trace>)
    ensures CompletedIds(a + b) == CompletedIds(a) + CompletedIds(b)
    decreases |b|
  {
    if b == [] {
      assert a + b == a;
    } else {
      assert (a + b)[..|a + b| - 1] == a + b[..|b| - 1];
      CompletedIdsAppend(a, b[..|b| - 1]);
    }
  }

  lemma CompletedIdsOfTrace(id: nat, r: string)
    ensures CompletedIds([PhaseOne(id)]) == multiset{}
    ensures CompletedIds([Completed(id, r)]) == multiset{id}
    ensures CompletedIds([PhaseTwo(id), Completed(id, r)]) == multiset{id}
  {
    assert [PhaseOne(id)][..0] == [];
    assert [Completed(id, r)][..0] == [];
    assert [PhaseTwo(id), Completed(id, r)][..1] == [PhaseTwo(id)];
    assert [PhaseTwo(id)][..0] == [];
  }

  /** A worker that hands over `gone` and takes on `added` changes the pool's holdings likewise. */
  lemma ReplaceWorker(pool: seq<Worker>, i: nat, w: Worker, gone: multiset<nat>, added: multiset<nat>)
    requires i < |pool|
    requires Outstanding(w) + gone == Outstanding(pool[i]) + added
    ensures OutstandingIn(pool[i := w]) + gone == OutstandingIn(pool) + added
  {
    OutstandingInUpdate(pool, i, w);
    var before, after := OutstandingIn(pool), OutstandingIn(pool[i := w]);
    var was, now := Outstanding(pool[i]), Outstanding(w);
    assert after + was == before + now;
    assert now + gone == was + added;
    forall x
      ensures (after + gone)[x] == (before + added)[x]
    {
      assert (after + was)[x] == (before + now)[x];
      assert (now + gone)[x] == (was + added)[x];
    }
  }

  /** A worker step that completes `done` and records it in the log keeps held-plus-completed fixed. */
  lemma WorkerStepAccounting(m: ActiveTargetMatcher, i: nat, s: WorkerStep)
    requires i < |m.pool|
    requires Outstanding(s.worker) + CompletedIds(s.trace) == Outstanding(m.pool[i])
    ensures OutstandingIn(m.pool[i := s.worker]) + CompletedIds(m.log + s.trace) == OutstandingIn(m.pool) + CompletedIds(m.log)
  {
    ReplaceWorker(m.pool, i, s.worker, CompletedIds(s.trace), multiset{});
    CompletedIdsAppend(m.log, s.trace);
    var after := OutstandingIn(m.pool[i := s.worker]);
    calc {
      after + CompletedIds(m.log + s.trace);
      (after + CompletedIds(s.trace)) + CompletedIds(m.log);
      OutstandingIn(m.pool) + CompletedIds(m.log);
    }
  }

  lemma QueryInAccounting(w: Worker)
    requires w.queryIn != []
    ensures var s := ReceiveQuery(w);
            Outstanding(s.worker) + CompletedIds(s.trace) == Outstanding(w)
  {
    var s := ReceiveQuery(w);
    var q := w.queryIn[0];
    CompletedIdsOfTrace(q.id, "");
    assert w.queryIn == [q] + w.queryIn[1..];
    IdsOfAppend([q], w.queryIn[1..]);
    IdsOfAppend(w.storeroom, [q]);
    IdsOfSingle(q);
  }

  lemma StoreroomInAccounting(w: Worker, k: nat, heap: Heap)
    requires k < |w.storeroom| && w.cache.Some?
    ensures var s := ReceiveStoreroom(w, k, heap);
            Outstanding(s.worker) + CompletedIds(s.trace) == Outstanding(w)
  {
    var s := ReceiveStoreroom(w, k, heap);
    var q := w.storeroom[k];
    CompletedIdsOfTrace(q.id, Lookup(heap.Get(w.cache.value), q.sku));
    assert w.storeroom == (w.storeroom[..k] + [q]) + w.storeroom[k + 1..];
    IdsOfAppend(w.storeroom[..k] + [q], w.storeroom[k + 1..]);
    IdsOfAppend(w.storeroom[..k], [q]);
    IdsOfAppend(w.storeroom[..k], w.storeroom[k + 1..]);
    IdsOfSingle(q);
  }

  /** What each kind of step does to the pool's holdings and to the completed ids. */
  lemma {:induction false} StepAccounting(m: ActiveTargetMatcher, e: Event, heap: Heap)
    requires Enabled(m, e)
    ensures var m' := Step(m, e, heap);
            && (e.Dispatch? ==> OutstandingIn(m'.pool) == OutstandingIn(m.pool) + multiset{m.issued} && m'.log == m.log)
            && (!e.Dispatch? ==> OutstandingIn(m'.pool) + CompletedIds(m'.log) == OutstandingIn(m.pool) + CompletedIds(m.log))
  {
    match e
    case Dispatch(sku) =>
      var i := NextWorker(m).index;
      var w := m.pool[i];
      var q := Query(m.issued, sku);
      IdsOfAppend(w.queryIn, [q]);
      IdsOfSingle(q);
      ReplaceWorker(m.pool, i, w.(queryIn := w.queryIn + [q]), multiset{}, multiset{m.issued});
    case QueryIn(i) =>
      var s := ReceiveQuery(m.pool[i]);
      assert Step(m, e, heap) == m.(pool := m.pool[i := s.worker], log := m.log + s.trace);
      QueryInAccounting(m.pool[i]);
      WorkerStepAccounting(m, i, s);
    case StoreroomIn(i, k) =>
      var s := ReceiveStoreroom(m.pool[i], k, heap);
      assert Step(m, e, heap) == m.(pool := m.pool[i := s.worker], log := m.log + s.trace);
      StoreroomInAccounting(m.pool[i], k, heap);
      WorkerStepAccounting(m, i, s);
    case CacheUpdateIn(i, h) =>
      var w := ReceiveUpdate(m.pool[i], h);
      assert Step(m, e, heap) == m.(pool := m.pool[i := w]);
      ReplaceWorker(m.pool, i, w, multiset{}, multiset{});
      var after, before := OutstandingIn(m.pool[i := w]), OutstandingIn(m.pool);
      assert after + multiset{} == before + multiset{};
      assert after == after + multiset{} && before == before + multiset{};
  }

  /** The accounting part of `Inv` is kept by every step. */
  lemma {:induction false} StepKeepsAccounting(m: ActiveTargetMatcher, e: Event, heap: Heap)
    requires Enabled(m, e) && Accounted(m)
    ensures Accounted(Step(m, e, heap))
  {
    StepAccounting(m, e, heap);
  }

  lemma StepKeepsPendingHaveCache(m: ActiveTargetMatcher, e: Event, heap: Heap)
    requires Enabled(m, e) && PendingHaveCache(m)
    ensures PendingHaveCache(Step(m, e, heap))
  {
  }

  lemma StepKeepsPhaseOrder(m: ActiveTargetMatcher, e: Event, heap: Heap)
    requires Enabled(m, e) && PendingPassedPhaseOne(m) && PhasesOrdered(m.log)
    ensures PendingPassedPhaseOne(Step(m, e, heap))
    ensures PhasesOrdered(Step(m, e, heap).log)
  {
  }

  /** Every step keeps the invariant. */
  lemma StepKeepsInv(m: ActiveTargetMatcher, e: Event, heap: Heap)
    requires Inv(m) && Enabled(m, e)
    ensures Inv(Step(m, e, heap))
  {
    StepKeepsAccounting(m, e, heap);
    StepKeepsPendingHaveCache(m, e, heap);
    StepKeepsPhaseOrder(m, e, heap);
    StepKeepsHeldAsIssued(m, e, heap);
  }

  lemma StepKeepsHeldAsIssued(m: ActiveTargetMatcher, e: Event, heap: Heap)
    requires Enabled(m, e) && HeldAsIssued(m)
    ensures HeldAsIssued(Step(m, e, heap))
  {
  }

  /** In a reachable state no query has completed twice. */
  lemma CompletesAtMostOnce(m: ActiveTargetMatcher, id: nat)
    requires Inv(m)
    ensures CompletedIds(m.log)[id] <= 1
    ensures CompletedIds(m.log)[id] == 1 ==> OutstandingIn(m.pool)[id] == 0
  {
    assert (OutstandingIn(m.pool) + CompletedIds(m.log))[id] == Below(m.issued)[id];
  }

  /**
   A step that completes a query completes one that was issued and had not
   completed before; afterwards it is no longer held by any worker.
   */
  lemma {:induction false} CompletionIsFirstAndLast(m: ActiveTargetMatcher, e: Event, heap: Heap, id: nat)
    requires Inv(m) && Enabled(m, e)
    requires CompletedIds(Step(m, e, heap).log)[id] > CompletedIds(m.log)[id]
    ensures id < m.issued
    ensures CompletedIds(m.log)[id] == 0
    ensures CompletedIds(Step(m, e, heap).log)[id] == 1
    ensures OutstandingIn(Step(m, e, heap).pool)[id] == 0
  {
    var m' := Step(m, e, heap);
    StepKeepsInv(m, e, heap);
    StepAccounting(m, e, heap);
    assert !e.Dispatch?;
    assert (OutstandingIn(m'.pool) + CompletedIds(m'.log))[id] == Below(m'.issued)[id];
    assert (OutstandingIn(m.pool) + CompletedIds(m.log))[id] == (OutstandingIn(m'.pool) + CompletedIds(m'.log))[id];
  }

  /** The reply `doQuery` returns for a query: the result stored when it completed, if it has. */
  function Reply(log: seq<Trace>, id: nat): (r: Option<string>)
    ensures r.Some? ==> Completed(id, r.value) in log
    ensures r.None? ==> forall k :: 0 <= k < |log| ==> !(log[k].Completed? && log[k].id == id)
    decreases |log|
  {
    if log == [] then None
    else
      var last := log[|log| - 1];
      if last.Completed? && last.id == id then Some(last.result) else Reply(log[..|log| - 1], id)
  }

  lemma {:induction false} ReplyIffCompleted(log: seq<Trace>, id: nat)
    ensures Reply(log, id).Some? <==> CompletedIds(log)[id] > 0
    ensures Reply(log, id).Some? ==> Completed(id, Reply(log, id).value) in log
    decreases |log|
  {
    if log != [] {
      ReplyIffCompleted(log[..|log| - 1], id);
    }
  }

  /**
   Once a query has completed, no later step changes the reply its caller
   receives: a completed query is never completed again.
   */
  lemma {:induction false} ReplyIsStable(m: ActiveTargetMatcher, e: Event, heap: Heap, id: nat)
    requires Inv(m) && Enabled(m, e)
    requires Reply(m.log, id).Some?
    ensures Reply(Step(m, e, heap).log, id) == Reply(m.log, id)
  {
    var m' := Step(m, e, heap);
    ReplyIffCompleted(m.log, id);
    if CompletedIds(m'.log)[id] > CompletedIds(m.log)[id] {
      CompletionIsFirstAndLast(m, e, heap, id);
    }
    var extra := m'.log[|m.log|..];
    assert m'.log == m.log + extra;
    CompletedIdsAppend(m.log, extra);
    ReplyAppend(m.log, extra, id);
  }

  /** The reply after more entries is the reply among them, if any, and otherwise the earlier one. */
  lemma {:induction false} ReplySplit(a: seq<Trace>, b: seq<Trace>, id: nat)
    ensures Reply(a + b, id) == if Reply(b, id).Some? then Reply(b, id) else Reply(a, id)
    decreases |b|
  {
    if b == [] {
      assert a + b == a;
    } else {
      var b' := b[..|b| - 1];
      assert (a + b)[..|a + b| - 1] == a + b';
      ReplySplit(a, b', id);
    }
  }

  /**
   The reply a `findMatch` caller receives, at the step that delivers it, is
   the lookup of the key that very call issued, in the table of the worker
   serving it, or `""` when that worker has no table.
   */
  lemma {:induction false} ReplyAnswersIssuedSku(m: ActiveTargetMatcher, e: Event, heap: Heap, id: nat)
    requires Inv(m) && Enabled(m, e)
    requires Reply(m.log, id).None?
    ensures var m' := Step(m, e, heap);
            var w := m.pool[WorkerOf(m, e)];
            Reply(m'.log, id).Some? ==>
              && id < m.issued
              && Reply(m'.log, id).value == if w.cache.None? then "" else Lookup(heap.Get(w.cache.value), m.skus[id])
  {
    match e
    case Dispatch(_) =>
      assert Step(m, e, heap).log == m.log;
    case CacheUpdateIn(_, _) =>
      assert Step(m, e, heap).log == m.log;
    case QueryIn(i) =>
      QueryInReply(m, i, heap, id);
    case StoreroomIn(i, k) =>
      StoreroomInReply(m, i, k, heap, id);
  }

  lemma {:induction false} QueryInReply(m: ActiveTargetMatcher, i: nat, heap: Heap, id: nat)
    requires i < |m.pool| && m.pool[i].queryIn != [] && HeldAsIssued(m)
    requires Reply(m.log, id).None?
    ensures var r := Reply(Step(m, QueryIn(i), heap).log, id);
            r.Some? ==> id < m.issued && r.value == "" && m.pool[i].cache.None?
  {
    var w := m.pool[i];
    var q := w.queryIn[0];
    assert q in w.queryIn;
    var s := ReceiveQuery(w);
    assert Step(m, QueryIn(i), heap).log == m.log + s.trace;
    ReplySplit(m.log, s.trace, id);
    ReplyOfWorkerTrace(q.id, "", id);
  }

  lemma {:induction false} StoreroomInReply(m: ActiveTargetMatcher, i: nat, k: nat, heap: Heap, id: nat)
    requires i < |m.pool| && k < |m.pool[i].storeroom| && m.pool[i].cache.Some? && HeldAsIssued(m)
    requires Reply(m.log, id).None?
    ensures var r := Reply(Step(m, StoreroomIn(i, k), heap).log, id);
            r.Some? ==> id < m.issued && r.value == Lookup(heap.Get(m.pool[i].cache.value), m.skus[id])
  {
    var w := m.pool[i];
    var q := w.storeroom[k];
    assert q in w.storeroom;
    var s := ReceiveStoreroom(w, k, heap);
    assert Step(m, StoreroomIn(i, k), heap).log == m.log + s.trace;
    ReplySplit(m.log, s.trace, id);
    ReplyOfWorkerTrace(q.id, Lookup(heap.Get(w.cache.value), q.sku), id);
  }

  /** The reply each kind of worker trace carries on its own. */
  lemma ReplyOfWorkerTrace(q: nat, r: string, id: nat)
    ensures Reply([PhaseOne(q)], id) == None
    ensures Reply([Completed(q, r)], id) == if id == q then Some(r) else None
    ensures Reply([PhaseTwo(q), Completed(q, r)], id) == if id == q then Some(r) else None
  {
    assert [PhaseOne(q)][..0] == [];
    assert [Completed(q, r)][..0] == [];
    assert [PhaseTwo(q), Completed(q, r)][..1] == [PhaseTwo(q)];
    assert [PhaseTwo(q)][..0] == [];
  }

  lemma {:induction false} ReplyAppend(a: seq<Trace>, b: seq<Trace>, id: nat)
    requires CompletedIds(b)[id] == 0
    ensures Reply(a + b, id) == Reply(a, id)
    decreases |b|
  {
    if b == [] {
      assert a + b == a;
    } else {
      var b' := b[..|b| - 1];
      assert (a + b)[..|a + b| - 1] == a + b';
      assert CompletedIds(b) == CompletedIds(b') + (if b[|b| - 1].Completed? then multiset{b[|b| - 1].id} else multiset{});
      ReplyAppend(a, b', id);
    }
  }

  // ---------------------------------------------------------------------------
  // Scenarios

  /** A query to a worker without a table completes at once with the zero string. */
  lemma NoCacheRepliesEmpty(m: ActiveTargetMatcher, i: nat, heap: Heap)
    requires i < |m.pool| && m.pool[i].queryIn != [] && m.pool[i].cache.None?
    ensures var m' := Step(m, QueryIn(i), heap);
            Reply(m'.log, m.pool[i].queryIn[0].id) == Some("")
  {
    var m' := Step(m, QueryIn(i), heap);
    assert m'.log[..|m'.log| - 1] == m.log;
  }

  /** A query still waiting in a worker's query channel has no reply yet. */
  lemma {:induction false} QueuedQueryUnanswered(m: ActiveTargetMatcher, i: nat)
    requires Inv(m) && i < |m.pool| && m.pool[i].queryIn != []
    ensures Reply(m.log, m.pool[i].queryIn[0].id).None?
  {
    var w := m.pool[i];
    var q := w.queryIn[0];
    OutstandingInUpdate(m.pool, i, NewWorker());
    assert w.queryIn == [q] + w.queryIn[1..];
    IdsOfAppend([q], w.queryIn[1..]);
    IdsOfSingle(q);
    assert Outstanding(w)[q.id] >= 1;
    assert OutstandingIn(m.pool)[q.id] >= 1;
    assert (OutstandingIn(m.pool) + CompletedIds(m.log))[q.id] == Below(m.issued)[q.id];
    ReplyIffCompleted(m.log, q.id);
  }

  /**
   A query served by a worker with a table: phase 1 leaves its reply as it
   was (none, by `QueuedQueryUnanswered`) and keeps it pending, and phase 2 replies
   with the lookup in whatever table the worker holds by then, here the table
   of a cache update that arrived between the two phases.
   */
  lemma {:induction false} PhaseTwoUsesCurrentCache(m: ActiveTargetMatcher, i: nat, h: Ref, heap: Heap)
    requires i < |m.pool| && m.pool[i].queryIn != [] && m.pool[i].cache.Some?
    ensures var q := m.pool[i].queryIn[0];
            var m1 := Step(m, QueryIn(i), heap);
            var k := |m.pool[i].storeroom|;
            && Reply(m1.log, q.id) == Reply(m.log, q.id)
            && m1.pool[i].cache == m.pool[i].cache
            && k < |m1.pool[i].storeroom| && m1.pool[i].storeroom[k] == q
            && var m2 := Step(m1, CacheUpdateIn(i, h), heap);
               var m3 := Step(m2, StoreroomIn(i, k), heap);
               Reply(m3.log, q.id) == Some(Match(heap.Get(h), q.sku))
  {
    var q := m.pool[i].queryIn[0];
    var m1 := Step(m, QueryIn(i), heap);
    assert m1.log[..|m1.log| - 1] == m.log;
    var k := |m.pool[i].storeroom|;
    var m2 := Step(m1, CacheUpdateIn(i, h), heap);
    var m3 := Step(m2, StoreroomIn(i, k), heap);
    assert m3.log[..|m3.log| - 1] + [m3.log[|m3.log| - 1]] == m3.log;
  }
}

=== FILE: buffers.dfy ===
/**
 The two table buffers `skuCacheA` and `skuCacheB` of the cache loader and the
 pointers to them. Every table handed to a matcher is one of these two, so a
 pointer is a `Ref` and reading through it consults the current `Heap`.
 */
module Buffers {
  import opened SkuCaches

  datatype Ref = A | B {

    /** The other buffer of the pair. */
    function Other(): (r: Ref)
      ensures r != this
      ensures {r, this} == {A, B}
    {
      match this
      case A => B
      case B => A
    }
  }

  /** The current contents of both buffers. */
  datatype Heap = Heap(a: SkuCache, b: SkuCache) {

    function Get(r: Ref): SkuCache
    {
      match r
      case A => a
      case B => b
    }

    /** Writing one buffer is seen through its pointer and leaves the other buffer alone. */
    function Set(r: Ref, c: SkuCache): (h: Heap)
      ensures h.Get(r) == c
      ensures h.Get(r.Other()) == Get(r.Other())
    {
      match r
      case A => this.(a := c)
      case B => this.(b := c)
    }
  }

  /** Two zero-valued `SkuCache` structs: both maps are nil, which read as empty. */
  function ZeroHeap(): (h: Heap)
    ensures forall r: Ref :: h.Get(r).cache == map[]
  {
    Heap(SkuCache(map[]), SkuCache(map[]))
  }
}

=== FILE: cache_loader.dfy ===
/**
 The double-buffered cache loader (`TargetCacheLoader`). Each reload cycle
 rebuilds the inactive buffer, swaps the roles, hands the newly active buffer
 to the matcher, and primes the now-inactive buffer with a copy of it. The
 loader reports what a cycle did as a trace of effects, so that the order of
 writes and notifications can be stated.
 */
module CacheLoader {
  import opened Optional
  import opened SkuCaches
  import opened Buffers

  datatype Loader = Loader(heap: Heap, active: Ref, inactive: Ref, isLoading: bool)

  /** The two role pointers designate two distinct buffers. */
  predicate Valid(l: Loader)
  {
    l.active != l.inactive
  }

  /** What a step of the loader did, in order: a buffer written, or a matcher notified. */
  datatype Effect = Wrote(buffer: Ref, contents: SkuCache) | Notified(buffer: Ref)

  /** The buffers after applying the writes of a trace, in order. */
  function Replay(h: Heap, effects: seq<Effect>): Heap
    decreases |effects|
  {
    if effects == [] then h
    else
      var last := effects[|effects| - 1];
      var before := Replay(h, effects[..|effects| - 1]);
      if last.Wrote? then before.Set(last.buffer, last.contents) else before
  }

  /** The buffers handed to the matcher, in notification order. */
  function Notifications(effects: seq<Effect>): seq<Ref>
    decreases |effects|
  {
    if effects == [] then []
    else
      var last := effects[|effects| - 1];
      Notifications(effects[..|effects| - 1]) + (if last.Notified? then [last.buffer] else [])
  }

  /** The buffer most recently handed to the matcher, if any. */
  function Served(effects: seq<Effect>): Option<Ref>
  {
    var ns := Notifications(effects);
    if ns == [] then None else Some(ns[|ns| - 1])
  }

  /** No write in the trace targets the buffer the matcher was most recently given. */
  predicate WritesAvoidServed(effects: seq<Effect>)
  {
    forall j :: 0 <= j < |effects| && effects[j].Wrote? ==> Served(effects[..j]) != Some(effects[j].buffer)
  }

  datatype Cycle = Cycle(loader: Loader, effects: seq<Effect>)

  /**
   `loadAndNotify`: populate the inactive buffer from `loaded` (the data source's
   new contents), swap the roles, notify the matcher with the new active buffer,
   then reset the now-inactive buffer and copy the active contents into it. The
   reset and the copy are two writes: between them the buffer is empty.
   */
  function LoadAndNotify(l: Loader, loaded: map<string, string>): (c: Cycle)
    requires Valid(l)
    ensures Valid(c.loader)
    ensures c.loader.active == l.inactive && c.loader.inactive == l.active
    ensures c.loader.isLoading == l.isLoading
    // the matcher is told exactly once, about the newly active buffer
    ensures Notifications(c.effects) == [c.loader.active]
    // when it is told, that buffer already holds the complete new contents
    ensures forall j :: 0 <= j < |c.effects| && c.effects[j].Notified? ==>
              Replay(l.heap, c.effects[..j]).Get(c.effects[j].buffer).cache == loaded
    // no write follows the notification into the buffer it named
    ensures forall j, k :: 0 <= j < k < |c.effects| && c.effects[j].Notified? && c.effects[k].Wrote? ==>
              c.effects[k].buffer != c.effects[j].buffer
    // the first write rebuilds the buffer that is not being served
    ensures |c.effects| > 0 && c.effects[0].Wrote? && c.effects[0].buffer == l.inactive
    ensures Replay(l.heap, c.effects) == c.loader.heap
    ensures c.loader.heap.Get(c.loader.active).cache == loaded
    ensures c.loader.heap.Get(c.loader.inactive) == c.loader.heap.Get(c.loader.active)
  {
    var filled := Populate(loaded);
    var populated := l.heap.Set(l.inactive, filled);
    var swapped := l.(heap := populated, active := l.inactive, inactive := l.active);
    var reset := InitSkuCache();
    var primed := CopyOf(populated.Get(swapped.active));
    var effects := [Wrote(l.inactive, filled), Notified(swapped.active), Wrote(swapped.inactive, reset), Wrote(swapped.inactive, primed)];
    CycleTrace(l.heap, effects);
    Cycle(swapped.(heap := populated.Set(swapped.inactive, reset).Set(swapped.inactive, primed)), effects)
  }

  /**
   `start`: the zero-valued loader points active at buffer A and inactive at B,
   then runs one cycle, after which B is active.
   */
  function Start(loaded: map<string, string>): (c: Cycle)
    ensures Valid(c.loader)
    ensures c.loader.active == B && c.loader.inactive == A
    ensures !c.loader.isLoading
    ensures Notifications(c.effects) == [B]
    ensures c.loader.heap.Get(B).cache == loaded
    ensures WritesAvoidServed(c.effects)
  {
    var c := LoadAndNotify(Loader(ZeroHeap(), A, B, false), loaded);
    CycleAvoidsServed(ZeroHeap(), c.effects);
    c
  }

  datatype TickOutcome = MissedTick | Reloaded

  datatype TickResult = TickResult(loader: Loader, outcome: TickOutcome, effects: seq<Effect>)

  /**
   The body of the ticker loop: a tick that finds a reload in progress is
   dropped; otherwise the flag is set, a cycle runs, and the flag is cleared.
   */
  function Tick(l: Loader, loaded: map<string, string>): (t: TickResult)
    requires Valid(l)
    ensures Valid(t.loader)
    ensures !t.loader.isLoading <==> !l.isLoading
    ensures t.outcome == MissedTick <==> l.isLoading
    ensures t.outcome == MissedTick ==> t.loader == l && t.effects == []
    ensures t.outcome == Reloaded ==>
              && t.loader.active == l.inactive && t.loader.inactive == l.active
              && Notifications(t.effects) == [t.loader.active]
              && t.loader.heap.Get(t.loader.active).cache == loaded
  {
    if l.isLoading then
      TickResult(l, MissedTick, [])
    else
      var c := LoadAndNotify(l.(isLoading := true), loaded);
      TickResult(c.loader.(isLoading := false), Reloaded, c.effects)
  }

  datatype History = History(loader: Loader, outcomes: seq<TickOutcome>, effects: seq<Effect>)

  /** The ticker loop run for one tick per element of `loads`, oldest first. */
  function Run(l: Loader, loads: seq<map<string, string>>): (h: History)
    requires Valid(l)
    ensures Valid(h.loader)
    ensures |h.outcomes| == |loads|
    ensures !l.isLoading ==> !h.loader.isLoading
    ensures !l.isLoading ==> forall i :: 0 <= i < |h.outcomes| ==> h.outcomes[i] == Reloaded
    ensures !l.isLoading && |loads| > 0 ==> h.loader.heap.Get(h.loader.active).cache == loads[|loads| - 1]
    decreases |loads|
  {
    if loads == [] then History(l, [], [])
    else
      var prev := Run(l, loads[..|loads| - 1]);
      var t := Tick(prev.loader, loads[|loads| - 1]);
      History(t.loader, prev.outcomes + [t.outcome], prev.effects + t.effects)
  }

  /** Once started, the loader never takes the missed-tick branch and is idle between ticks. */
  lemma NoMissedTicks(loads: seq<map<string, string>>, first: map<string, string>)
    ensures var h := Run(Start(first).loader, loads);
            && !h.loader.isLoading
            && forall i :: 0 <= i < |h.outcomes| ==> h.outcomes[i] != MissedTick
  {
  }

  // ---------------------------------------------------------------------------
  // The buffer being rebuilt is never the one most recently handed out.

  lemma {:induction false} NotificationsAppend(a: seq<Effect>, b: seq<Effect>)
    ensures Notifications(a + b) == Notifications(a) + Notifications(b)
    decreases |b|
  {
    if b == [] {
      assert a + b == a;
    } else {
      var b' := b[..|b| - 1];
      assert (a + b)[..|a + b| - 1] == a + b';
      NotificationsAppend(a, b');
    }
  }

  /** One more effect at the end of a trace. */
  lemma Snoc(h: Heap, a: seq<Effect>, x: Effect)
    ensures Notifications(a + [x]) == Notifications(a) + (if x.Notified? then [x.buffer] else [])
    ensures Replay(h, a + [x]) == if x.Wrote? then Replay(h, a).Set(x.buffer, x.contents) else Replay(h, a)
  {
    assert (a + [x])[..|a|] == a;
  }

  /** Extending a prefix of a trace by the next effect. */
  lemma PrefixStep(h: Heap, e: seq<Effect>, k: nat)
    requires k < |e|
    ensures Notifications(e[..k + 1]) == Notifications(e[..k]) + (if e[k].Notified? then [e[k].buffer] else [])
    ensures Replay(h, e[..k + 1]) == if e[k].Wrote? then Replay(h, e[..k]).Set(e[k].buffer, e[k].contents) else Replay(h, e[..k])
  {
    assert e[..k + 1] == e[..k] + [e[k]];
    Snoc(h, e[..k], e[k]);
  }

  /** The notifications and buffer contents along every prefix of a four-effect trace. */
  lemma CycleTrace(h: Heap, e: seq<Effect>)
    requires |e| == 4
    ensures e[..0] == [] && e[..4] == e
    ensures Notifications(e[..1]) == (if e[0].Notified? then [e[0].buffer] else [])
    ensures forall k :: 1 <= k < 4 ==>
              Notifications(e[..k + 1]) == Notifications(e[..k]) + (if e[k].Notified? then [e[k].buffer] else [])
    ensures Replay(h, e[..1]) == if e[0].Wrote? then h.Set(e[0].buffer, e[0].contents) else h
    ensures forall k :: 1 <= k < 4 ==>
              Replay(h, e[..k + 1]) == if e[k].Wrote? then Replay(h, e[..k]).Set(e[k].buffer, e[k].contents) else Replay(h, e[..k])
  {
    assert e[..0] == [] && e[..4] == e;
    PrefixStep(h, e, 0);
    PrefixStep(h, e, 1);
    PrefixStep(h, e, 2);
    PrefixStep(h, e, 3);
  }

  /** A write, a notification and two writes elsewhere: the writes never touch the buffer being served. */
  lemma CycleAvoidsServed(h: Heap, e: seq<Effect>)
    requires |e| == 4
    requires e[0].Wrote? && e[1].Notified? && e[2].Wrote? && e[3].Wrote?
    requires e[2].buffer != e[1].buffer && e[3].buffer != e[1].buffer
    ensures Served(e) == Some(e[1].buffer)
    ensures WritesAvoidServed(e)
  {
    CycleTrace(h, e);
  }

  /** Appending a cycle's effects to a history that serves the active buffer keeps writes off the served buffer. */
  lemma {:induction false} AppendCycleAvoidsServed(prev: seq<Effect>, l: Loader, loaded: map<string, string>)
    requires Valid(l)
    requires WritesAvoidServed(prev)
    requires Served(prev) == Some(l.active)
    ensures var c := LoadAndNotify(l, loaded);
            && WritesAvoidServed(prev + c.effects)
            && Served(prev + c.effects) == Some(c.loader.active)
  {
    var c := LoadAndNotify(l, loaded);
    var all := prev + c.effects;
    var n := |prev|;
    CycleTrace(l.heap, c.effects);
    forall j | 0 <= j < |all| && all[j].Wrote?
      ensures Served(all[..j]) != Some(all[j].buffer)
    {
      if j < n {
        assert all[..j] == prev[..j];
        assert all[j] == prev[j];
      } else if j == n {
        assert all[..j] == prev;
      } else {
        assert all[..j] == prev + c.effects[..j - n];
        NotificationsAppend(prev, c.effects[..j - n]);
      }
    }
    NotificationsAppend(prev, c.effects);
  }

  /**
   Swap atomicity: at every point of a cycle, the buffer the matcher holds
   (the old active one until the notification, the new one from then on) holds
   a complete table: the one it held before the cycle, or the new contents.
   */
  lemma {:induction false} ServedTableIsComplete(l: Loader, loaded: map<string, string>, j: nat)
    requires Valid(l)
    requires j <= |LoadAndNotify(l, loaded).effects|
    ensures var c := LoadAndNotify(l, loaded);
            var ns := Notifications(c.effects[..j]);
            var held := if ns == [] then l.active else ns[|ns| - 1];
            Replay(l.heap, c.effects[..j]).Get(held) == if ns == [] then l.heap.Get(l.active) else Populate(loaded)
  {
    var c := LoadAndNotify(l, loaded);
    CycleTrace(l.heap, c.effects);
  }

  /** Ticks of an idle loader keep writes off the served buffer, and keep serving the active one. */
  lemma {:induction false} RunKeepsServedActive(prev: seq<Effect>, l: Loader, loads: seq<map<string, string>>)
    requires Valid(l) && !l.isLoading
    requires WritesAvoidServed(prev)
    requires Served(prev) == Some(l.active)
    ensures var h := Run(l, loads);
            && WritesAvoidServed(prev + h.effects)
            && Served(prev + h.effects) == Some(h.loader.active)
    decreases |loads|
  {
    var h := Run(l, loads);
    if loads == [] {
      assert prev + h.effects == prev;
    } else {
      var init := loads[..|loads| - 1];
      var last := loads[|loads| - 1];
      RunKeepsServedActive(prev, l, init);
      var before := Run(l, init);
      var busy := before.loader.(isLoading := true);
      AppendCycleAvoidsServed(prev + before.effects, busy, last);
      var c := LoadAndNotify(busy, last);
      assert h.effects == before.effects + c.effects;
      assert prev + h.effects == (prev + before.effects) + c.effects;
    }
  }

  /**
   Over the whole life of a started loader, no write lands in the buffer the
   matcher currently holds, and the buffer it holds is always the active one.
   */
  lemma RunAvoidsServed(first: map<string, string>, loads: seq<map<string, string>>)
    ensures var s := Start(first);
            var h := Run(s.loader, loads);
            && WritesAvoidServed(s.effects + h.effects)
            && Served(s.effects + h.effects) == Some(h.loader.active)
  {
    var s := Start(first);
    CycleAvoidsServed(ZeroHeap(), s.effects);
    RunKeepsServedActive(s.effects, s.loader, loads);
  }
}

=== FILE: matchers.dfy ===
/**
 The `TargetMatcher` interface and the loader wired to it: every buffer the
 loader notifies is passed, in order, to the matcher's `updateCache`.
 */
module Matchers {
  import opened Optional
  import opened SkuCaches
  import opened Buffers
  import opened CacheLoader
  import AM = ActiveMatcher
  import PM = PassiveMatcher

  /** The two implementations of the interface. */
  datatype TargetMatcher = Active(active: AM.ActiveTargetMatcher) | Passive(passive: PM.PassiveTargetMatcher)

  /**
   `updateCache` through the interface: whichever implementation is behind it,
   every handle it holds becomes `r`; the actor matcher's pool, queues,
   counter, issued queries and trace are left as they were.
   */
  function UpdateCache(m: TargetMatcher, r: Ref): (m': TargetMatcher)
    ensures m'.Active? == m.Active?
    ensures Holds(m', r)
    ensures m.Active? ==>
              && |m'.active.pool| == |m.active.pool|
              && m'.active.next == m.active.next && m'.active.skus == m.active.skus && m'.active.log == m.active.log
              && forall i :: 0 <= i < |m.active.pool| ==>
                   m'.active.pool[i].queryIn == m.active.pool[i].queryIn && m'.active.pool[i].storeroom == m.active.pool[i].storeroom
  {
    match m
    case Active(a) => Active(AM.UpdateCache(a, r))
    case Passive(p) => Passive(PM.UpdateCache(p, r))
  }

  /** Every handle the matcher holds is `r`. */
  predicate Holds(m: TargetMatcher, r: Ref)
  {
    match m
    case Active(a) => forall i :: 0 <= i < |a.pool| ==> a.pool[i].cache == Some(r)
    case Passive(p) => PM.GetCache(p) == Some(r)
  }

  /** The notified buffers passed to `updateCache` one after the other. */
  function Deliver(m: TargetMatcher, ns: seq<Ref>): (m': TargetMatcher)
    ensures m'.Active? == m.Active?
    ensures ns != [] ==> Holds(m', ns[|ns| - 1])
    decreases |ns|
  {
    if ns == [] then m else UpdateCache(Deliver(m, ns[..|ns| - 1]), ns[|ns| - 1])
  }

  datatype System = System(loader: Loader, matcher: TargetMatcher)

  /** The system serves the loader's active buffer through every handle of its matcher. */
  predicate Serving(s: System)
  {
    Valid(s.loader) && !s.loader.isLoading && Holds(s.matcher, s.loader.active)
  }

  /** `start` with the matcher as its notify target. */
  function StartSystem(m: TargetMatcher, loaded: map<string, string>): (s: System)
    ensures Serving(s)
    ensures s.loader.heap.Get(s.loader.active).cache == loaded
  {
    var c := Start(loaded);
    System(c.loader, Deliver(m, Notifications(c.effects)))
  }

  /** One tick of the loader, its notifications delivered to the matcher. */
  function TickSystem(s: System, loaded: map<string, string>): (s': System)
    requires Serving(s)
    ensures Serving(s')
    ensures s'.loader.heap.Get(s'.loader.active).cache == loaded
  {
    var t := Tick(s.loader, loaded);
    System(t.loader, Deliver(s.matcher, Notifications(t.effects)))
  }

  /** The system after one tick per element of `loads`. */
  function RunSystem(s: System, loads: seq<map<string, string>>): (s': System)
    requires Serving(s)
    ensures Serving(s')
    ensures |loads| > 0 ==> s'.loader.heap.Get(s'.loader.active).cache == loads[|loads| - 1]
    ensures loads == [] ==> s' == s
    decreases |loads|
  {
    if loads == [] then s else TickSystem(RunSystem(s, loads[..|loads| - 1]), loads[|loads| - 1])
  }

  /**
   After start-up and any number of reloads, a lock-based lookup (with no
   update racing it) answers from the most recently loaded contents.
   */
  lemma {:induction false} PassiveServesLatestLoad(first: map<string, string>, loads: seq<map<string, string>>, sku: string)
    ensures var s := RunSystem(StartSystem(Passive(PM.NewPassiveTargetMatcher()), first), loads);
            var latest := if loads == [] then first else loads[|loads| - 1];
            && s.matcher.Passive?
            && PM.GetCache(s.matcher.passive).Some?
            && PM.FindMatch(s.matcher.passive, s.loader.heap, sku, None).result
               == (if sku in latest then latest[sku] else "")
  {
    var s0 := StartSystem(Passive(PM.NewPassiveTargetMatcher()), first);
    ActivenessPreserved(s0, loads);
  }

  /**
   After start-up and any number of reloads, every worker of the actor matcher
   holds the active buffer, and a query a worker serves in full replies from
   the most recently loaded contents.
   */
  lemma {:induction false} ActiveServesLatestLoad(n: nat, first: map<string, string>, loads: seq<map<string, string>>)
    ensures var s := RunSystem(StartSystem(Active(AM.NewActiveTargetMatcher(n)), first), loads);
            var latest := if loads == [] then first else loads[|loads| - 1];
            && s.matcher.Active?
            && |s.matcher.active.pool| == n
            && forall i :: 0 <= i < n ==>
                 && s.matcher.active.pool[i].cache == Some(s.loader.active)
                 && forall sku :: Match(s.loader.heap.Get(s.matcher.active.pool[i].cache.value), sku)
                                   == (if sku in latest then latest[sku] else "")
  {
    var s0 := StartSystem(Active(AM.NewActiveTargetMatcher(n)), first);
    var s := RunSystem(s0, loads);
    var latest := if loads == [] then first else loads[|loads| - 1];
    DeliverKeepsPoolSize(Active(AM.NewActiveTargetMatcher(n)), Notifications(Start(first).effects));
    PoolSizePreserved(s0, loads);
    var served := s.loader.heap.Get(s.loader.active);
    assert served.cache == latest;
    forall i | 0 <= i < n
      ensures s.matcher.active.pool[i].cache == Some(s.loader.active)
      ensures forall sku :: Match(s.loader.heap.Get(s.matcher.active.pool[i].cache.value), sku)
                             == (if sku in latest then latest[sku] else "")
    {
      assert Holds(s.matcher, s.loader.active);
    }
  }

  lemma {:induction false} ActivenessPreserved(s: System, loads: seq<map<string, string>>)
    requires Serving(s)
    ensures RunSystem(s, loads).matcher.Active? == s.matcher.Active?
    decreases |loads|
  {
    if loads != [] {
      ActivenessPreserved(s, loads[..|loads| - 1]);
    }
  }

  lemma {:induction false} PoolSizePreserved(s: System, loads: seq<map<string, string>>)
    requires Serving(s) && s.matcher.Active?
    ensures RunSystem(s, loads).matcher.Active?
    ensures |RunSystem(s, loads).matcher.active.pool| == |s.matcher.active.pool|
    decreases |loads|
  {
    if loads != [] {
      var prev := RunSystem(s, loads[..|loads| - 1]);
      PoolSizePreserved(s, loads[..|loads| - 1]);
      DeliverKeepsPoolSize(prev.matcher, Notifications(Tick(prev.loader, loads[|loads| - 1]).effects));
    } else {
      ActivenessPreserved(s, loads);
    }
  }

  lemma {:induction false} DeliverKeepsPoolSize(m: TargetMatcher, ns: seq<Ref>)
    requires m.Active?
    ensures Deliver(m, ns).Active? && |Deliver(m, ns).active.pool| == |m.active.pool|
    decreases |ns|
  {
    if ns != [] {
      DeliverKeepsPoolSize(m, ns[..|ns| - 1]);
    }
  }

  // ---------------------------------------------------------------------------
  // Lock-based lookups during a reload

  /**
   With each phase's match under the read lock, a lookup made at any point of
   a reload cycle reads a complete table: the previous contents until the
   matcher is notified, the new contents from then on.
   */
  lemma {:induction false} LockedFindMatchSeesCompleteTable(s: System, loaded: map<string, string>, j: nat, sku: string)
    requires Serving(s) && s.matcher.Passive?
    requires j <= |Tick(s.loader, loaded).effects|
    ensures var e := Tick(s.loader, loaded).effects[..j];
            var p := Deliver(s.matcher, Notifications(e)).passive;
            var heap := Replay(s.loader.heap, e);
            && PM.GetCache(p).Some?
            && PM.FindMatch(p, heap, sku, None).result
               == if Notifications(e) == [] then Lookup(s.loader.heap.Get(s.loader.active), sku)
                  else (if sku in loaded then loaded[sku] else "")
  {
    var busy := s.loader.(isLoading := true);
    ServedTableIsComplete(busy, loaded, j);
  }

  /**
   The source's phase over a whole reload: the handle is read after the first
   `i` effects of a tick and the match runs after the first `j`. A handle read
   after the notification answers from the new contents. A handle read before
   it answers from the old table while the match runs before the reset, from
   the new contents once the prime has copied them in, and `""` in between,
   after the reset (effect 3) and before the prime (effect 4), whatever the
   key.
   */
  lemma {:induction false} MatchOutsideLockDuringReload(s: System, loaded: map<string, string>, i: nat, j: nat, sku: string)
    requires Serving(s) && s.matcher.Passive?
    requires i <= j <= |Tick(s.loader, loaded).effects|
    ensures var e := Tick(s.loader, loaded).effects;
            var p := Deliver(s.matcher, Notifications(e[..i])).passive;
            var before := Lookup(s.loader.heap.Get(s.loader.active), sku);
            var after := if sku in loaded then loaded[sku] else "";
            && PM.GetCache(p).Some?
            && PM.MatchOutsideLock(p, Replay(s.loader.heap, e[..j]), sku)
               == if Notifications(e[..i]) != [] then after
                  else if j <= 2 then before
                  else if j == 3 then ""
                  else after
  {
    var l := s.loader;
    var c := LoadAndNotify(l.(isLoading := true), loaded);
    var e := c.effects;
    CycleTrace(l.heap, e);
    assert Tick(l, loaded).effects == e;
    assert l.active == l.inactive.Other();
    var p := Deliver(s.matcher, Notifications(e[..i])).passive;
    var heap := Replay(l.heap, e[..j]);
    if i <= 1 {
      assert Notifications(e[..i]) == [];
      assert p == s.matcher.passive;
      if j == 3 {
        assert heap.Get(l.active) == InitSkuCache();
      } else if j == 4 {
        assert heap.Get(l.active) == Populate(loaded);
      } else {
        assert heap.Get(l.active) == l.heap.Get(l.active);
      }
    } else {
      assert Notifications(e[..i]) == [l.inactive];
      assert PM.GetCache(p) == Some(l.inactive);
      assert heap.Get(l.inactive) == Populate(loaded);
    }
  }

  /**
   The source's phase, with the match outside the lock: a lookup that read the
   handle just before a reload, and matches right after the loader has reset
   the buffer it was handed, finds nothing, although the key is present in
   both the old and the new contents.
   */
  lemma StaleHandleSeesResetBuffer()
    ensures var s := StartSystem(Passive(PM.NewPassiveTargetMatcher()), map["0" := "a"]);
            var e := Tick(s.loader, map["0" := "b"]).effects;
            && |e| == 4 && e[2].Wrote? && e[2].contents.cache == map[]
            && PM.GetCache(s.matcher.passive).Some?
            && PM.MatchOutsideLock(s.matcher.passive, Replay(s.loader.heap, e[..3]), "0") == ""
  {
    var s := StartSystem(Passive(PM.NewPassiveTargetMatcher()), map["0" := "a"]);
    var c := LoadAndNotify(s.loader.(isLoading := true), map["0" := "b"]);
    CycleTrace(s.loader.heap, c.effects);
  }
}

=== FILE: optional.dfy ===
/** A Go pointer that may be nil, as an optional value. */
module Optional {

  datatype Option<+T> = None | Some(value: T)

}

=== FILE: passive_matcher.dfy ===
/**
 The lock-based matcher (`PassiveTargetMatcher`): one table handle behind a
 reader-writer lock. Each locked section is one atomic step. `findMatch`
 takes the read lock separately for each of its two phases, so a cache update
 can land between them.

 In the source only the read of the handle is under the lock; the match
 through it runs after the lock is released (`MatchOutsideLock`). `FindMatch`
 holds the lock across each phase's match instead, which is what keeps a
 lookup off a buffer the loader is resetting.
 */
module PassiveMatcher {
  import opened Optional
  import opened SkuCaches
  import opened Buffers

  datatype PassiveTargetMatcher = PassiveTargetMatcher(cache: Option<Ref>)

  /** `NewPassiveTargetMatcher`: the handle starts nil. */
  function NewPassiveTargetMatcher(): (p: PassiveTargetMatcher)
    ensures GetCache(p).None?
  {
    PassiveTargetMatcher(None)
  }

  /** `getCache`: read the handle under the read lock; it is nil only for a matcher no update has reached. */
  function GetCache(p: PassiveTargetMatcher): (r: Option<Ref>)
    ensures r.None? <==> p == PassiveTargetMatcher(None)
  {
    p.cache
  }

  /** `updateCache`: install a handle under the write lock; the next `getCache` sees it. */
  function UpdateCache(p: PassiveTargetMatcher, c: Ref): (p': PassiveTargetMatcher)
    ensures GetCache(p') == Some(c)
  {
    p.(cache := Some(c))
  }

  /**
   One phase of `findMatch` as the source runs it: `getCache` reads the handle
   under the read lock, then `match` reads the table through that handle after
   the lock is released, by which time the buffers hold `atMatch`. Against the
   same buffer contents it answers as the locked `FindMatch` does; the two
   differ only in when the table is read.
   */
  function MatchOutsideLock(p: PassiveTargetMatcher, atMatch: Heap, sku: string): (r: string)
    requires GetCache(p).Some?
    ensures r == FindMatch(p, atMatch, sku, None).result
  {
    var handle := GetCache(p);
    Match(atMatch.Get(handle.value), sku)
  }

  /** What `findMatch` returns, together with the matcher as it stands when it returns. */
  datatype Answer = Answer(matcher: PassiveTargetMatcher, result: string)

  /**
   `findMatch`, each phase's handle read and match under one read lock: phase
   1 matches (result discarded), the lock is released over the simulated I/O
   wait, and phase 2 reads the handle again and matches. `between` is a cache
   update that lands during the wait, if any. A nil handle at phase 1 is a nil
   dereference in the source, hence the precondition.
   */
  function FindMatch(p: PassiveTargetMatcher, heap: Heap, sku: string, between: Option<Ref>): (s: Answer)
    requires GetCache(p).Some?
    ensures between.None? ==> s.matcher == p && s.result == Lookup(heap.Get(GetCache(p).value), sku)
    ensures between.Some? ==> s.matcher == UpdateCache(p, between.value) && s.result == Lookup(heap.Get(between.value), sku)
  {
    var phaseOne := Match(heap.Get(GetCache(p).value), sku);
    var p' := if between.Some? then UpdateCache(p, between.value) else p;
    Answer(p', Match(heap.Get(GetCache(p').value), sku))
  }
}

=== FILE: sku_cache.dfy ===
/**
 The lookup table (`SkuCache`): a map from SKU to strategy whose `match`
 probes the same key a fixed number of times to emulate a heavier matching
 algorithm.
 */
module SkuCaches {

  /** How many identical reads `match` performs per call. */
  const ProbeCount: nat := 50

  /** A Go `map[string]string`; the nil map of a zero `SkuCache` reads as the empty map. */
  datatype SkuCache = SkuCache(cache: map<string, string>)

  /** One read of a Go map: the stored value, or the zero string when the key is absent. */
  function Lookup(c: SkuCache, sku: string): string
  {
    if sku in c.cache then c.cache[sku] else ""
  }

  /**
   The probing loop with `n` iterations left, where `str` holds the value read
   by the previous iteration: however many reads remain, the outcome is the
   value one read would give.
   */
  function Probes(c: SkuCache, sku: string, n: nat, str: string): (r: string)
    ensures n == 0 ==> r == str
    ensures n > 0 ==> r == Lookup(c, sku)
    decreases n
  {
    if n == 0 then str else Probes(c, sku, n - 1, Lookup(c, sku))
  }

  /** `match`: `ProbeCount` reads of the same key, starting from the zero string. */
  function Match(c: SkuCache, sku: string): (r: string)
    ensures sku in c.cache ==> r == c.cache[sku]
    ensures sku !in c.cache ==> r == ""
    ensures r == Lookup(c, sku)
  {
    Probes(c, sku, ProbeCount, "")
  }

  /** `initSkuCache`: the table is replaced by a new, empty map. */
  function InitSkuCache(): (c: SkuCache)
    ensures |c.cache| == 0
    ensures forall sku :: Match(c, sku) == ""
  {
    SkuCache(map[])
  }

  /**
   The data source (`loadTestData`) as seen by the table it fills: the table is
   reset and then receives every entry of `loaded`, so nothing of its previous
   contents survives.
   */
  function Populate(loaded: map<string, string>): (c: SkuCache)
    ensures c.cache.Keys == loaded.Keys
    ensures forall sku :: Match(c, sku) == (if sku in loaded then loaded[sku] else "")
  {
    SkuCache(InitSkuCache().cache + loaded)
  }

  /**
   The priming copy of the loader: reset the target, then store every
   key/value pair of `src` into it. The copy holds exactly the source's entries.
   */
  function CopyOf(src: SkuCache): (c: SkuCache)
    ensures c == src
    ensures forall sku :: Match(c, sku) == Match(src, sku)
  {
    var copied := InitSkuCache().cache + map k | k in src.cache :: src.cache[k];
    assert copied == src.cache;
    SkuCache(copied)
  }
}
